=== FILE: README.md ===
# Cron next-run calculator, modelled in Dafny

`cron.py` reads crontab-like lines of the form `<minute> <hour> <executable>`.
For each line it reports the next time the executable will run, relative to a
reference time given as `HH:MM`. The output is `HH:MM today - <executable>` or
`HH:MM tomorrow - <executable>`.

A field is either a number or the wildcard `*`. The wildcard expands to `0`.
The next-run calculation then branches on the expanded numbers, so a literal
`0` in either field behaves exactly like `*`. The model keeps that behaviour.

The modules follow the program's layers:

- `Outcomes`: `Option`, `Result` and the two error kinds. `CronError` is
  `CronExpection`. `ValueError` covers the errors raised by `int()`,
  `datetime.time(...)` and tuple unpacking.
- `Text`: the Python string operations the core relies on:
  - `str.split(":")`, `str.split()` and `str.rsplit(" ", 1)`;
  - `int()` on a string, with sign and surrounding whitespace;
  - the two-digit zero padding of `strftime('%H:%M')`.
- `Times`: the `datetime.time` value as hour and minute, with its range check and its
  ordering. Also the reference-time parser (`TimeInput.__set__`) and the
  `HH:MM` rendering.
- `CronTab`: the expression parser (`TimeTab._expand` and `TimeTab.__set__`).
- `NextRun`: `get_next` and `get_when_run`. Also `IsCronNext`, an independent
  declarative description of the earliest run of the schedule `get_next`
  reads, where a 0 field matches every value. The two are compared against
  each other.
- `Command`: `CronTabCommand`. It is a class whose fields are fixed at
  construction, except for the memo `toRun` (`_to_run`), which
  `GetNextRun` fills on its first call. `ToString` renders the line.

## Model

| member | source | states |
|---|---|---|
| Times.MakeTime | cron.py:35 | `datetime.time(h, m)` succeeds exactly when 0 <= h <= 23 and 0 <= m <= 59, and then holds those values. Otherwise it is a ValueError. |
| Times.BeforeIsMinuteOrder | cron.py:137 | Comparing two times field by field is the same as comparing their minutes since midnight. Equal minutes mean equal times. |
| Times.ParseClock | cron.py:34-35 | The reference-time parser only yields valid times, and every failure is a ValueError. More than two `:`-separated parts always fails. A part that `int()` refuses is a ValueError, so text such as `"ab:cd"` is refused. Otherwise the `int()` values go to `datetime.time`, with the minute 0 for a bare hour. So `"-1:30"` is a ValueError and `"13: 05"` is 13:05. |
| Times.ParseClockDigits | cron.py:35 | For digit strings `H` and `M`, `"H:M"` parses to exactly `datetime.time(H, M)`, range check included. |
| Times.ParseClockHourOnly | cron.py:35 | A digit string without a colon parses as that hour at minute 0. |
| Times.ParseClockLeadingZeros | cron.py:35 | Within `int()`'s digit limit (see Left out), leading zeros in either part do not change the parsed time (`"03:6"` equals `"3:6"`). |
| Times.ParseClockExample | tests.py:50-52 | `"03:6"` parses to 03:06. |
| Times.Format | cron.py:113 | `strftime('%H:%M')` output is five characters: the hour as two zero-padded digits, a `:`, then the minute as two zero-padded digits. |
| Times.ParseClockFormat | cron.py:113 | Round trip: parsing the `HH:MM` rendering of any valid time gives that time back. |
| Text.Split | cron.py:35 | `str.split(sep)` yields at least one piece, and no piece contains the separator. |
| Text.JoinSplit | cron.py:35 | Joining the pieces of `str.split(sep)` with `sep` gives the original string. |
| Text.SplitJoin | cron.py:35 | Splitting a join of separator-free pieces gives those pieces back. |
| Text.Words | cron.py:61 | `str.split()` yields only non-empty words without whitespace, and no more words than the text has characters (so empty text has none). Which words it yields is stated by `WordsAtSpace` and `WordsOfWord`. |
| Text.WordsAtSpace | cron.py:61 | Any whitespace character separates words. The words of `a + c + b`, where `c` is whitespace, are the words of `a` followed by the words of `b`. Leading, trailing and repeated whitespace therefore produce no words. |
| Text.WordsOfWord | cron.py:61 | Non-empty text without whitespace is exactly one word. Together with `WordsAtSpace` and the length bound of `Words`, which makes empty text wordless, this fixes `str.split()` on every input. |
| Text.WordsJoin | cron.py:61 | Splitting a single-space join of such words gives those words back. |
| Text.WordsOfTwo | cron.py:61-65 | `"a b"`, for words `a` and `b`, splits into exactly `[a, b]`. |
| Text.RSplitOnce | cron.py:103 | `rsplit(" ", 1)` yields one piece exactly when there is no space. Otherwise it yields two pieces that rejoin to the input, and the second has no space (the cut is at the last space). |
| Text.RSplitOnceJoin | cron.py:103 | Cutting `a + " " + b`, where `b` has no space, gives `[a, b]`. |
| Text.ParseInt | cron.py:35 | Within `int()`'s digit limit (see Left out), `int()` succeeds exactly when the text is an optionally signed run of ASCII digits once the whitespace `int()` ignores is stripped. That whitespace excludes U+001C..U+001F, which `str.split()` does treat as whitespace. The value is that of the stripped numeral: the digits' decimal value, negated after a `-`. |
| Text.LeadingZero | cron.py:35 | A leading `0` does not change a digit string's value. |
| Text.Pad2 | cron.py:113 | Two-digit padding of 0..99 is two digits whose value is the number. |
| CronTab.FieldValue | cron.py:67-68 | `*` resolves to 0. Within `int()`'s digit limit (see Left out), any other token resolves exactly as `int()` does: a digit string gives its value, `"-5"` gives -5 and `"x"` fails. |
| CronTab.Expand | cron.py:60-63 | Anything other than exactly two whitespace-separated tokens is a CronError. Exactly two tokens, however they are spaced, are expanded as those tokens by `ExpandTokens`. On success, the first token is the minute and the second the hour, the hour at most 23 and the minute at most 59. Only these upper bounds are checked, as in the source. |
| CronTab.ExpandTokens | cron.py:65-76 | The steps run in the source's order. A minute token that does not convert is a ValueError. Otherwise, an hour token that does not convert is a ValueError. Once both convert, an hour above 23 is a CronError. Then a minute above 59 is a CronError. Otherwise the result is `[hour, minute]`. |
| CronTab.ExpandTwo | cron.py:61-65 | Expanding `"m h"` is expanding the tokens `m` and `h`. |
| CronTab.ExpandTrailingSpace | cron.py:61 | An expression with a trailing space (what the cut at the last space leaves when two spaces precede the executable) expands as its two tokens. |
| CronTab.ParseTab | cron.py:56-57 | The expression parser yields only valid times, namely the `[hour, minute]` pair that `_expand` computed. `_expand`'s errors pass through unchanged. A pair from `_expand` gives a time exactly when neither field is negative; a negative field is a ValueError from `datetime.time`. |
| CronTab.TimeOf | cron.py:57 | `datetime.time(*pair)` succeeds exactly when the hour is in 0..23 and the minute in 0..59, and then keeps the values. Out of range it is a ValueError. Errors from `_expand` pass through. |
| CronTab.ParseTabFields | cron.py:65-76 | For well-formed fields `m` and `h` (each `*` or a decimal number), `"m h"` parses to the time (h, m) when the hour is at most 23 and the minute at most 59. Otherwise it is a CronError. |
| CronTab.ParseTabSameFields | cron.py:60-76 | `_expand` reads its tokens only through their values. Two texts with the same number of words, and with equal field values when there are two, parse to the same result. |
| CronTab.WildcardHourIsZero | cron.py:68 | For any text `m`, `"m *"` and `"m 0"` parse to the same result. |
| CronTab.WildcardMinuteIsZero | cron.py:67 | For any text `h`, `"* h"` and `"0 h"` parse to the same result. |
| CronTab.ParseTabOneToken | tests.py:75-76 | `"*"` is a CronError. |
| CronTab.ParseTabExampleBothWild | tests.py:63 | `"* *"` is 00:00. |
| CronTab.ParseTabExampleBoth | tests.py:64 | `"30 1"` is 01:30. |
| CronTab.ParseTabExampleHour | tests.py:65 | `"* 20"` is 20:00. |
| CronTab.ParseTabExampleMinute | tests.py:66 | `"15 *"` is 00:15. |
| CronTab.ParseTabExampleMinuteRange | tests.py:78-79 | `"62 *"` is a CronError. |
| CronTab.ParseTabExampleHourRange | tests.py:81-82 | `"30 24"` is a CronError. |
| NextRun.GetNext | cron.py:139-166 | The next run is always a valid time. If both fields are nonzero, it is the expected time. Otherwise it is never earlier than now. It either matches the schedule or is now itself. When now matches, it is now. All four branches are exhaustive, so the trailing `return None` is unreachable. |
| NextRun.GetWhenRun | cron.py:131-137 | "tomorrow" exactly when the next run is earlier in the day than now. A next run equal to now is "today". |
| NextRun.TomorrowOnlyForPassedExplicitTime | cron.py:131-166 | The line reports "tomorrow" exactly when both fields are nonzero and that time has already passed today. |
| NextRun.CronNextUnique | cron.py:139-166 | The declarative description of the schedule's earliest run (`IsCronNext`) names at most one run and day. |
| NextRun.GetNextIsCronNextIff | cron.py:152-165 | Consider the schedule `get_next` reads, where a 0 field (written `*` or `0`) matches every value. `get_next` with `get_when_run` gives that schedule's earliest run if and only if neither of two cases holds: an hourly minute (`m *`) that has already passed this hour, or a daily hour (`* h`) that has already passed today. |
| NextRun.PassedAnswersNow | cron.py:158-165 | In the two "already passed" cases, `get_next` returns the current time and `get_when_run` says "today". Together with `GetNextIsCronNextIff` and `CronNextUnique`, this fixes `get_next` on every input. |
| NextRun.HourlyMinutePassedExample | cron.py:158-159 | `"15 *"` at 16:30 gives 16:30 today, whereas the schedule's next run is 17:15 today. |
| NextRun.GetNextExamples | tests.py:106-166 | The expected values of the repository's `get_next` and `get_when_run` tests. |
| Command.ParseCommand | cron.py:103-106 | A line is cut at its last space. The expression and the executable rejoin to the line, and the executable has no space. The reference time and the expression are the parsers' results. A line without a space is a ValueError. A bad reference time fails first, with its own error. Otherwise the line succeeds exactly when the expression parses, and an expression error passes through. |
| Command.ParseCommandLine | cron.py:103-106 | A line `expr + " " + exe` with a space-free `exe` succeeds whenever the reference time and `expr` both parse. It yields `expr`, `exe` and the two parsed times. |
| Command.RenderReadsBack | cron.py:111-116 | The rendered line's first five characters are the `HH:MM` rendering of the next run and parse back to it. The rest is `" today - exe"` or `" tomorrow - exe"`. |
| Command.CronTabCommand.constructor | cron.py:94-109 | After `__init__`, the fields hold exactly what `ParseCommand` yields for the arguments. The next run is `get_next` of the reference and expected times, and the memo holds it. |
| Command.CronTabCommand.GetNextRun | cron.py:118-129 | Returns `get_next(time_now, time_to_run)` and stores it in the memo. A memo that is already set is left unchanged, so repeated calls agree. Nothing else changes. |
| Command.CronTabCommand.ToString | cron.py:111-116 | The rendered line starts with the next run's hour as two zero-padded digits, a `:`, and its minute as two zero-padded digits. These five characters read back as the run. The line continues with the day word and the executable. |
| Command.Create | cron.py:94-109 | Constructing from a line and a reference time fails exactly when `ParseCommand` fails, and with its error. Otherwise it yields a fresh, consistent object. Its fields hold the arguments and `ParseCommand`'s results, and its next run is `get_next` of them. |
| Command.DailyExample | tests.py:86-96 | `"30 1 /bin/run_me_daily"` at 16:10 runs at 01:30 tomorrow. |
| Command.EveryMinuteExample | tests.py:98-104 | `"* * /bin/run_some_time"` at 10:15 renders as `"10:15 today - /bin/run_some_time"`. |
| Command.RenderEveryMinute | cron.py:111-116 | Rendering 10:15, today, `/bin/run_some_time` gives `"10:15 today - /bin/run_some_time"`. |

## Left out

- `ConfigParser.read`, `Cron.execute` and the `__main__` block: they read standard input and write standard output. The core they call is modelled.
- Descriptor storage: `TimeInput` and `TimeTab` keep the parsed value on the descriptor, which is shared by every instance of the owning class. The model gives each record its own parsed time, because each command is parsed and used before the next one is.
- `CronTabTime.__le__` (cron.py:89-90): the core never calls it.
- Times.ParseClock: `datetime.time` also accepts a third and fourth argument (seconds, microseconds). The model has no seconds, so a reference time with three or four `:`-separated parts is a ValueError here, not a time with seconds. Five or more parts raise TypeError in Python and ValueError in the model.
- Text.ParseInt: `int()` also accepts underscores between digits and non-ASCII decimal digits. The model accepts ASCII digits with an optional `+` or `-` and surrounding whitespace, and treats those other forms as failures. `int()` also refuses text with more digits than its configurable limit (4300 by default, leading zeros included). The model has no such limit, so its statements about `int()`, `FieldValue` and the reference-time parser hold only within it.
- Exception messages, and the distinction between `TypeError` and `ValueError`, are not modelled. Only the two error kinds are.
- `strftime` is modelled only for `%H:%M` on valid times, which is the only format the core uses.
- The reference time is not required to be `H:M`. The code also accepts a bare hour: `"13"` is one `:`-separated part and gives `datetime.time(13)`, that is 13:00. The model keeps that behaviour (see `Times.ParseClockHourOnly`) and does not require exactly one colon.
- No separate error kinds for a bad time format, a bad expression and an out-of-range field. The model keeps the two kinds the code raises. A token that is neither `*` nor an integer is a ValueError raised by `int()`, not a CronError. A malformed reference time is always a ValueError.
- Literal 0 fields: a cron daemon reads `"30 0"` as 00:30 each day, but `get_next` reads the 0 like `*`. The model keeps the source's reading, and `IsCronNext` describes that reading, not a daemon's. So `"30 0"` at 10:00 gives 10:30 today, where a daemon would run at 00:30 tomorrow. `"0 5"` and `"0 0"` differ in the same way.
- `_to_run` is tested with `not`. Under Python 3.5 and later, a `datetime.time` value is always truthy, so only "no value yet" triggers the computation. The model's memo is an `Option` with exactly that meaning.

=== FILE: command.dfy ===
/** One configuration line turned into its next run (CronTabCommand). */
module Command {
  import opened Outcomes
  import opened Text
  import opened Times
  import opened CronTab
  import opened NextRun

  /** What __init__ reads out of its two arguments before computing anything. */
  datatype Parsed = Parsed(timeExpr: string, executable: string, timeNow: Time, timeToRun: Time)

  /** The parsing half of CronTabCommand.__init__, in its order: cut the line
      at its last space (ValueError when there is none), read the reference
      time, then read the expression. The first error raised is the result. */
  function ParseCommand(command: string, baseTime: string): (r: Result<Parsed>)
    ensures r.Success? ==> r.value.timeExpr + " " + r.value.executable == command
    ensures r.Success? ==> ' ' !in r.value.executable
    ensures r.Success? ==> ParseClock(baseTime) == Success(r.value.timeNow)
    ensures r.Success? ==> ParseTab(r.value.timeExpr) == Success(r.value.timeToRun)
    ensures ' ' !in command ==> r == Failure(ValueError)
    ensures ' ' in command && ParseClock(baseTime).Failure? ==> r == Failure(ParseClock(baseTime).error)
    ensures ' ' in command && ParseClock(baseTime).Success? ==>
      (r.Success? <==> ParseTab(RSplitOnce(command, ' ')[0]).Success?)
      && (r.Failure? ==> r.error == ParseTab(RSplitOnce(command, ' ')[0]).error)
  {
    var parts := RSplitOnce(command, ' ');
    if |parts| != 2 then Failure(ValueError)
    else
      match ParseClock(baseTime)
      case Failure(e) => Failure(e)
      case Success(now) =>
        match ParseTab(parts[0])
        case Failure(e) => Failure(e)
        case Success(tab) => Success(Parsed(parts[0], parts[1], now, tab))
  }

  /** A line "<expression> <executable>" with a space-free executable and a
      reference time that both parse yields exactly those parts and the
      two parsed times. */
  lemma ParseCommandLine(expr: string, executable: string, baseTime: string)
    requires ' ' !in executable
    requires ParseClock(baseTime).Success? && ParseTab(expr).Success?
    ensures ParseCommand(expr + " " + executable, baseTime)
         == Success(Parsed(expr, executable, ParseClock(baseTime).value, ParseTab(expr).value))
  {
    RSplitOnceJoin(expr, executable, ' ');
    assert expr + " " + executable == expr + [' '] + executable;
  }

  /** CronTabCommand.__str__: "HH:MM <today|tomorrow> - <executable>". */
  function Render(next: Time, when: Day, executable: string): (s: string)
    requires next.Valid()
    ensures |s| > 5
  {
    Format(next) + " " + DayName(when) + " - " + executable
  }

  /** The rendered line starts with the run time, which reads back as that
      time, and ends with the executable. */
  lemma RenderReadsBack(next: Time, when: Day, executable: string)
    requires next.Valid()
    ensures Render(next, when, executable)[..5] == Format(next)
    ensures ParseClock(Render(next, when, executable)[..5]) == Success(next)
    ensures Render(next, when, executable)[5..] == " " + DayName(when) + " - " + executable
  {
    var f, tail := Format(next), " " + DayName(when) + " - " + executable;
    var s := Render(next, when, executable);
    assert s == f + tail;
    assert s[..5] == f && s[5..] == tail;
    ParseClockFormat(next);
  }

  class CronTabCommand {
    // Set once by __init__ and never changed afterwards.
    const command: string
    const baseTime: string
    const timeExpr: string
    const executable: string
    const timeNow: Time
    const timeToRun: Time
    /** The memoised next run: None until get_next_run first computes it. */
    var toRun: Option<Time>
    var timeToRunNext: Time
    var whenToRun: Day

    /** What get_next_run relies on: both times are valid and the memo, once
        filled, holds get_next of them. */
    ghost predicate Memoised()
      reads this`toRun
    {
      timeNow.Valid() && timeToRun.Valid()
      && (toRun.Some? ==> toRun.value == GetNext(timeNow, timeToRun))
    }

    /** The state __init__ leaves behind. */
    ghost predicate Valid()
      reads this
    {
      Memoised()
      && toRun == Some(timeToRunNext)
      && whenToRun == GetWhenRun(timeNow, timeToRunNext)
    }

    /** CronTabCommand.__init__ for a line and reference time that parse;
        Create below is the same with the raised error as a result. */
    constructor (command: string, baseTime: string)
      requires ParseCommand(command, baseTime).Success?
      ensures Valid()
      ensures this.command == command && this.baseTime == baseTime
      ensures ParseCommand(command, baseTime) == Success(Parsed(timeExpr, executable, timeNow, timeToRun))
      ensures timeToRunNext == GetNext(timeNow, timeToRun)
    {
      this.command := command;
      this.baseTime := baseTime;
      toRun := None;
      var parts := RSplitOnce(command, ' ');
      timeExpr, executable := parts[0], parts[1];
      timeNow := ParseClock(baseTime).value;
      timeToRun := ParseTab(parts[0]).value;
      new;
      timeToRunNext := GetNextRun();
      whenToRun := GetWhenRun(timeNow, timeToRunNext);
    }

    /** CronTabCommand.get_next_run: computes get_next once and afterwards
        returns the stored value, so every call gives the same answer. */
    method GetNextRun() returns (next: Time)
      requires Memoised()
      modifies this`toRun
      ensures Memoised()
      ensures next == GetNext(timeNow, timeToRun)
      ensures toRun == Some(next)
      ensures old(toRun).Some? ==> toRun == old(toRun)
    {
      if toRun.None? {
        var n := GetNext(timeNow, timeToRun);
        toRun := Some(n);
      }
      next := toRun.value;
    }

    /** CronTabCommand.__str__. */
    function ToString(): (s: string)
      reads this
      requires Valid()
      ensures |s| > 5
      ensures ParseClock(s[..5]) == Success(timeToRunNext)
      ensures IsDigits(s[..2]) && DigitsValue(s[..2]) == timeToRunNext.hour && s[2] == ':'
      ensures IsDigits(s[3..5]) && DigitsValue(s[3..5]) == timeToRunNext.minute
      ensures s[5..] == " " + DayName(whenToRun) + " - " + executable
    {
      RenderReadsBack(timeToRunNext, whenToRun, executable);
      var s := Render(timeToRunNext, whenToRun, executable);
      assert s[..2] == s[..5][..2] && s[3..5] == s[..5][3..];
      s
    }
  }

  /** CronTabCommand(command, base_time) with the exception it may raise
      returned as a Failure. */
  method Create(command: string, baseTime: string) returns (r: Result<CronTabCommand>)
    ensures r.Failure? <==> ParseCommand(command, baseTime).Failure?
    ensures r.Failure? ==> r.error == ParseCommand(command, baseTime).error
    ensures r.Success? ==>
      fresh(r.value) && r.value.Valid()
      && r.value.command == command && r.value.baseTime == baseTime
      && ParseCommand(command, baseTime)
         == Success(Parsed(r.value.timeExpr, r.value.executable, r.value.timeNow, r.value.timeToRun))
      && r.value.timeToRunNext == GetNext(r.value.timeNow, r.value.timeToRun)
  {
    match ParseCommand(command, baseTime)
    case Failure(e) =>
      r := Failure(e);
    case Success(_) =>
      var c := new CronTabCommand(command, baseTime);
      r := Success(c);
  }

  /** The repository's end-to-end test: "30 1 /bin/run_me_daily" at 16:10
      runs at 01:30 tomorrow. */
  method DailyExample() returns (next: Time, when: Day)
    ensures next == Time(1, 30) && when == Tomorrow
  {
    var line, expr, exe := "30 1 /bin/run_me_daily", "30 1", "/bin/run_me_daily";
    assert line == expr + [' '] + exe;
    RSplitOnceJoin(expr, exe, ' ');
    ParseClockAt16h10();
    ParseTabExampleBoth();
    var c := new CronTabCommand(line, "16:10");
    next, when := c.timeToRunNext, c.whenToRun;
  }

  /** The repository's rendering test: "* * /bin/run_some_time" at 10:15 is
      "10:15 today - /bin/run_some_time". */
  method EveryMinuteExample() returns (s: string)
    ensures s == "10:15 today - /bin/run_some_time"
  {
    var line, expr, exe := "* * /bin/run_some_time", "* *", "/bin/run_some_time";
    assert line == expr + [' '] + exe;
    RSplitOnceJoin(expr, exe, ' ');
    ParseClockAt10h15();
    ParseTabExampleBothWild();
    var c := new CronTabCommand(line, "10:15");
    assert c.timeToRunNext == Time(10, 15) && c.whenToRun == Today;
    RenderEveryMinute();
    s := c.ToString();
  }

  lemma RenderEveryMinute()
    ensures Render(Time(10, 15), Today, "/bin/run_some_time") == "10:15 today - /bin/run_some_time"
  {
    FormatTenFifteen();
    var f, w, exe := Format(Time(10, 15)), DayName(Today), "/bin/run_some_time";
    assert f + " " + w + " - " + exe == "10:15 today - /bin/run_some_time";
  }

  lemma FormatTenFifteen()
    ensures Format(Time(10, 15)) == "10:15"
  {
    assert Pad2(10) == "10" by {
      assert DigitChar(1) == '1' && DigitChar(0) == '0';
    }
    assert Pad2(15) == "15" by {
      assert DigitChar(1) == '1' && DigitChar(5) == '5';
    }
  }

  /** The reference times of the two end-to-end tests. Each is a separate
      lemma so that the literal reasoning stays out of the example methods. */
  lemma ParseClockAt16h10()
    ensures ParseClock("16:10") == Success(Time(16, 10))
  {
    var hs, ms := "16", "10";
    assert "16:10" == hs + ":" + ms;
    assert DigitsValue(hs) == 16 && DigitsValue(ms) == 10;
    ParseClockDigits(hs, ms);
  }

  lemma ParseClockAt10h15()
    ensures ParseClock("10:15") == Success(Time(10, 15))
  {
    var hs, ms := "10", "15";
    assert "10:15" == hs + ":" + ms;
    assert DigitsValue(hs) == 10 && DigitsValue(ms) == 15;
    ParseClockDigits(hs, ms);
  }
}

=== FILE: crontab.dfy ===
/** The two-field schedule expression "<minute> <hour>" (TimeTab in the
    source): each field is `*` or a number, `*` standing for 0. */
module CronTab {
  import opened Outcomes
  import opened Text
  import opened Times

  /** One field token: `*` reads as 0, anything else goes through int(). */
  function FieldValue(token: string): (r: Option<int>)
    ensures token == "*" ==> r == Some(0)
    ensures IsDigits(token) ==> r == Some(DigitsValue(token))
    ensures token != "*" ==> (r.Some? <==> IsNumeral(Strip(token)))
    ensures token != "*" ==> r == ParseInt(token)
  {
    if token == "*" then Some(0) else ParseInt(token)
  }

  /** TimeTab._expand: the pair [hour, minute] from "<minute> <hour>".
      Exactly two whitespace-separated tokens are required, the first is the
      minute and the second the hour. */
  function Expand(s: string): (r: Result<(int, int)>)
    ensures |Words(s)| != 2 ==> r == Failure(CronError)
    ensures |Words(s)| == 2 ==> r == ExpandTokens(Words(s)[0], Words(s)[1])
    ensures r.Success? ==> |Words(s)| == 2
    ensures r.Success? ==> FieldValue(Words(s)[0]) == Some(r.value.1)
    ensures r.Success? ==> FieldValue(Words(s)[1]) == Some(r.value.0)
    ensures r.Success? ==> r.value.0 <= 23 && r.value.1 <= 59
  {
    var tokens := Words(s);
    if |tokens| != 2 then Failure(CronError) else ExpandTokens(tokens[0], tokens[1])
  }

  /** The rest of _expand once the two tokens are known: each is converted
      (minute first), then the hour and after it the minute are checked
      against their upper bound. */
  function ExpandTokens(minuteToken: string, hourToken: string): (r: Result<(int, int)>)
    ensures r.Success? ==> FieldValue(minuteToken) == Some(r.value.1)
    ensures r.Success? ==> FieldValue(hourToken) == Some(r.value.0)
    ensures r.Success? ==> r.value.0 <= 23 && r.value.1 <= 59
    ensures FieldValue(minuteToken).None? ==> r == Failure(ValueError)
    ensures FieldValue(minuteToken).Some? && FieldValue(hourToken).None? ==> r == Failure(ValueError)
    ensures FieldValue(minuteToken).Some? && FieldValue(hourToken).Some? ==>
      var minute, hour := FieldValue(minuteToken).value, FieldValue(hourToken).value;
      (hour > 23 ==> r == Failure(CronError))
      && (hour <= 23 && minute > 59 ==> r == Failure(CronError))
      && (hour <= 23 && minute <= 59 ==> r == Success((hour, minute)))
  {
    match FieldValue(minuteToken)
    case None => Failure(ValueError)
    case Some(minute) =>
      match FieldValue(hourToken)
      case None => Failure(ValueError)
      case Some(hour) =>
        if hour > 23 then Failure(CronError)
        else if minute > 59 then Failure(CronError)
        else Success((hour, minute))
  }

  /** Two tokens joined by a space are expanded as those two tokens. */
  lemma ExpandTwo(mt: string, ht: string)
    requires mt != [] && NoSpace(mt) && ht != [] && NoSpace(ht)
    ensures Expand(mt + " " + ht) == ExpandTokens(mt, ht)
  {
    WordsOfTwo(mt, ht);
  }

  /** A line with two spaces before the executable leaves a trailing space on
      the expression after the cut at the last space; split() ignores it. */
  lemma ExpandTrailingSpace(mt: string, ht: string)
    requires mt != [] && NoSpace(mt) && ht != [] && NoSpace(ht)
    ensures Expand(mt + " " + ht + " ") == ExpandTokens(mt, ht)
  {
    var e: string := [];
    WordsAtSpace(mt + " " + ht, ' ', e);
    assert mt + " " + ht + " " == mt + " " + ht + [' '] + e;
    WordsOfTwo(mt, ht);
  }

  /** TimeTab.__set__: datetime.time(*_expand(value)), which also refuses a
      negative field with ValueError. */
  function ParseTab(s: string): (r: Result<Time>)
    ensures r.Success? ==> r.value.Valid()
    ensures r.Success? ==> Expand(s) == Success((r.value.hour, r.value.minute))
    ensures Expand(s).Failure? ==> r == Failure(Expand(s).error)
    ensures Expand(s).Success? ==> (r.Success? <==> 0 <= Expand(s).value.0 && 0 <= Expand(s).value.1)
    ensures Expand(s).Success? && r.Failure? ==> r.error == ValueError
  {
    TimeOf(Expand(s))
  }

  /** datetime.time applied to an expanded pair, errors passed through. */
  function TimeOf(pair: Result<(int, int)>): (r: Result<Time>)
    ensures r.Success? ==> r.value.Valid() && pair == Success((r.value.hour, r.value.minute))
    ensures pair.Failure? ==> r == Failure(pair.error)
    ensures pair.Success? ==> (r.Success? <==> 0 <= pair.value.0 <= 23 && 0 <= pair.value.1 <= 59)
    ensures pair.Success? && r.Failure? ==> r.error == ValueError
  {
    match pair
    case Failure(e) => Failure(e)
    case Success((hour, minute)) => MakeTime(hour, minute)
  }

  /** A well-formed field: the wildcard or a decimal number. */
  predicate IsField(token: string) {
    token == "*" || IsDigits(token)
  }

  /** The number a well-formed field stands for. */
  function FieldNumber(token: string): nat
    requires IsField(token)
  {
    if token == "*" then 0 else DigitsValue(token)
  }

  /** "<minute> <hour>" with well-formed fields binds the first field to the
      minute and the second to the hour, and fails with CronError exactly
      when the hour exceeds 23 or the minute exceeds 59. */
  lemma ParseTabFields(mt: string, ht: string)
    requires IsField(mt) && IsField(ht)
    ensures ParseTab(mt + " " + ht) ==
      if FieldNumber(ht) <= 23 && FieldNumber(mt) <= 59
      then Success(Time(FieldNumber(ht), FieldNumber(mt)))
      else Failure(CronError)
  {
    ExpandTwo(mt, ht);
  }

  /** _expand reads its tokens only through their values, so two texts with
      as many words, and with equal field values when there are two, parse
      alike. */
  lemma ParseTabSameFields(s1: string, s2: string)
    requires |Words(s1)| == |Words(s2)|
    requires |Words(s1)| == 2 ==>
      FieldValue(Words(s1)[0]) == FieldValue(Words(s2)[0])
      && FieldValue(Words(s1)[1]) == FieldValue(Words(s2)[1])
    ensures ParseTab(s1) == ParseTab(s2)
  {
  }

  /** The wildcard and a literal 0 give the same value, so nothing after
      parsing can tell "30 *" from "30 0". This holds for any text before the
      last field: with other than one word there, both are a CronError. */
  lemma WildcardHourIsZero(mt: string)
    ensures ParseTab(mt + " *") == ParseTab(mt + " 0")
  {
    var star, zero := "*", "0";
    assert mt + " *" == mt + [' '] + star && mt + " 0" == mt + [' '] + zero;
    WordsAtSpace(mt, ' ', star);
    WordsAtSpace(mt, ' ', zero);
    WordsOfWord(star);
    WordsOfWord(zero);
    assert FieldValue(star) == FieldValue(zero) by {
      assert IsDigits(zero) && DigitsValue(zero) == 0;
    }
    ParseTabSameFields(mt + [' '] + star, mt + [' '] + zero);
  }

  /** Likewise nothing can tell "* 5" from "0 5", whatever follows the first
      field. */
  lemma WildcardMinuteIsZero(ht: string)
    ensures ParseTab("* " + ht) == ParseTab("0 " + ht)
  {
    var star, zero := "*", "0";
    assert "* " + ht == star + [' '] + ht && "0 " + ht == zero + [' '] + ht;
    WordsAtSpace(star, ' ', ht);
    WordsAtSpace(zero, ' ', ht);
    WordsOfWord(star);
    WordsOfWord(zero);
    assert FieldValue(star) == FieldValue(zero) by {
      assert IsDigits(zero) && DigitsValue(zero) == 0;
    }
    ParseTabSameFields(star + [' '] + ht, zero + [' '] + ht);
  }

  /** Anything but two tokens is refused with CronError, "*" among them. */
  lemma ParseTabOneToken()
    ensures ParseTab("*") == Failure(CronError)
  {
    assert Words("*") == ["*"] by {
      WordsJoin(["*"]);
    }
  }

  lemma ParseTabExampleBothWild()
    ensures ParseTab("* *") == Success(Time(0, 0))
  {
    var mt, ht := "*", "*";
    assert "* *" == mt + " " + ht;
    ParseTabFields(mt, ht);
  }

  lemma ParseTabExampleBoth()
    ensures ParseTab("30 1") == Success(Time(1, 30))
  {
    var mt, ht := "30", "1";
    assert "30 1" == mt + " " + ht;
    assert DigitsValue(mt) == 30 && DigitsValue(ht) == 1;
    ParseTabFields(mt, ht);
  }

  lemma ParseTabExampleHour()
    ensures ParseTab("* 20") == Success(Time(20, 0))
  {
    var mt, ht := "*", "20";
    assert "* 20" == mt + " " + ht;
    assert DigitsValue(ht) == 20;
    ParseTabFields(mt, ht);
  }

  lemma ParseTabExampleMinute()
    ensures ParseTab("15 *") == Success(Time(0, 15))
  {
    var mt, ht := "15", "*";
    assert "15 *" == mt + " " + ht;
    assert DigitsValue(mt) == 15;
    ParseTabFields(mt, ht);
  }

  lemma ParseTabExampleMinuteRange()
    ensures ParseTab("62 *") == Failure(CronError)
  {
    var mt, ht := "62", "*";
    assert "62 *" == mt + " " + ht;
    assert DigitsValue(mt) == 62;
    ParseTabFields(mt, ht);
  }

  lemma ParseTabExampleHourRange()
    ensures ParseTab("30 24") == Failure(CronError)
  {
    var mt, ht := "30", "24";
    assert "30 24" == mt + " " + ht;
    assert DigitsValue(ht) == 24;
    ParseTabFields(mt, ht);
  }
}

=== FILE: nextrun.dfy ===
/** The next-run calculation (CronTabCommand.get_next and get_when_run) and
    how it relates to the schedule an expression describes. */
module NextRun {
  import opened Times

  datatype Day = Today | Tomorrow

  /** The words get_when_run returns. */
  function DayName(d: Day): string {
    match d
    case Today => "today"
    case Tomorrow => "tomorrow"
  }

  /** The schedule get_next's branches read an expanded expression as: a
      field that is 0 (whether written `*` or `0`) matches every value, any
      other field matches only itself. */
  predicate Matches(expected: Time, t: Time) {
    (expected.hour == 0 || t.hour == expected.hour)
    && (expected.minute == 0 || t.minute == expected.minute)
  }

  /** CronTabCommand.get_next. The branches test the expanded numbers, so a
      literal 0 behaves like `*`. The four cases cover every input, so the
      trailing `return None` of the source is never reached. */
  function GetNext(current: Time, expected: Time): (next: Time)
    requires current.Valid() && expected.Valid()
    ensures next.Valid()
    // a fully explicit time is returned as it is, even when it has passed
    ensures expected.hour != 0 && expected.minute != 0 ==> next == expected
    // otherwise the answer is never earlier than now
    ensures expected.hour == 0 || expected.minute == 0 ==> !Before(next, current)
    // the answer is a time the schedule names, or else now
    ensures Matches(expected, next) || next == current
    // a job that is due now runs now
    ensures Matches(expected, current) ==> next == current
  {
    if expected.hour != 0 && expected.minute != 0 then
      expected
    else if expected.hour == 0 && expected.minute == 0 then
      current
    else if expected.hour == 0 && expected.minute != 0 then
      Time(current.hour, if current.minute < expected.minute then expected.minute else current.minute)
    else if expected.hour != 0 && expected.minute == 0 then
      if current.hour < expected.hour then Time(expected.hour, 0) else current
    else
      assert false; current
  }

  /** CronTabCommand.get_when_run: "tomorrow" exactly when the next run lies
      earlier in the day than now; equal times are "today". */
  function GetWhenRun(current: Time, next: Time): (d: Day)
    requires current.Valid() && next.Valid()
    ensures d == Tomorrow <==> MinuteOfDay(next) < MinuteOfDay(current)
    ensures next == current ==> d == Today
  {
    BeforeIsMinuteOrder(next, current);
    if Before(next, current) then Tomorrow else Today
  }

  /** "tomorrow" is only ever reported for a fully explicit time that has
      already passed today. */
  lemma TomorrowOnlyForPassedExplicitTime(current: Time, expected: Time)
    requires current.Valid() && expected.Valid()
    ensures GetWhenRun(current, GetNext(current, expected)) == Tomorrow
        <==> expected.hour != 0 && expected.minute != 0 && Before(expected, current)
  {
    var next := GetNext(current, expected);
    BeforeIsMinuteOrder(next, current);
  }

  /** The earliest run of the schedule Matches describes (a 0 field read as
      `*`, as get_next reads it): the earliest matching minute at or after
      now, today; or, when nothing is left today, the earliest matching
      minute of the day, tomorrow. A cron daemon would instead read a
      literal 0 as the value 0. */
  ghost predicate IsCronNext(current: Time, expected: Time, t: Time, d: Day) {
    t.Valid() && Matches(expected, t)
    && (d == Today ==>
          !Before(t, current)
          && forall u: Time :: u.Valid() && Matches(expected, u) && !Before(u, current) ==> !Before(u, t))
    && (d == Tomorrow ==>
          forall u: Time :: u.Valid() && Matches(expected, u) ==> Before(u, current) && !Before(u, t))
  }

  /** IsCronNext names at most one run. */
  lemma CronNextUnique(current: Time, expected: Time, t1: Time, d1: Day, t2: Time, d2: Day)
    requires IsCronNext(current, expected, t1, d1) && IsCronNext(current, expected, t2, d2)
    ensures t1 == t2 && d1 == d2
  {
  }

  /** get_next with get_when_run picks the earliest run of the schedule
      Matches describes, except in two situations: an hourly minute ("m *") that has already passed
      this hour, and a daily hour ("* h") that has already passed today. In
      both the source answers "now, today" where the next matching run is
      in the next hour, or at hour h tomorrow. */
  lemma GetNextIsCronNextIff(current: Time, expected: Time)
    requires current.Valid() && expected.Valid()
    ensures IsCronNext(current, expected, GetNext(current, expected),
                       GetWhenRun(current, GetNext(current, expected)))
        <==> (!(expected.hour == 0 && expected.minute != 0 && current.minute > expected.minute)
              && !(expected.hour != 0 && expected.minute == 0 && current.hour > expected.hour))
  {
    var next := GetNext(current, expected);
    var d := GetWhenRun(current, next);
    BeforeIsMinuteOrder(next, current);
    if expected.hour != 0 && expected.minute != 0 {
      assert IsCronNext(current, expected, next, d);
    } else if expected.hour == 0 && expected.minute == 0 {
      assert IsCronNext(current, expected, next, d);
    } else if expected.hour == 0 {
      if current.minute <= expected.minute {
        assert IsCronNext(current, expected, next, d);
      } else {
        assert !Matches(expected, next);
      }
    } else {
      if current.hour <= expected.hour {
        assert IsCronNext(current, expected, next, d);
      } else {
        assert !Matches(expected, next);
      }
    }
  }

  /** In the two "already passed" cases get_next answers now, today: an
      hourly minute behind the current minute (max picks the current one),
      and a daily hour behind the current hour. */
  lemma PassedAnswersNow(current: Time, expected: Time)
    requires current.Valid() && expected.Valid()
    requires (expected.hour == 0 && expected.minute != 0 && current.minute > expected.minute)
          || (expected.hour != 0 && expected.minute == 0 && current.hour > expected.hour)
    ensures GetNext(current, expected) == current
    ensures GetWhenRun(current, GetNext(current, expected)) == Today
  {
  }

  /** "15 *" at 16:30: the source answers 16:30 today, while the schedule's
      next run is 17:15 today. */
  lemma HourlyMinutePassedExample()
    ensures GetNext(Time(16, 30), Time(0, 15)) == Time(16, 30)
    ensures GetWhenRun(Time(16, 30), Time(16, 30)) == Today
    ensures IsCronNext(Time(16, 30), Time(0, 15), Time(17, 15), Today)
  {
  }

  /** The expected values of the repository's get_next and get_when_run tests. */
  lemma GetNextExamples()
    ensures GetNext(Time(16, 10), Time(1, 30)) == Time(1, 30)
    ensures GetNext(Time(1, 0), Time(1, 30)) == Time(1, 30)
    ensures GetNext(Time(16, 10), Time(0, 45)) == Time(16, 45)
    ensures GetNext(Time(10, 0), Time(0, 30)) == Time(10, 30)
    ensures GetNext(Time(16, 10), Time(0, 0)) == Time(16, 10)
    ensures GetNext(Time(16, 10), Time(19, 0)) == Time(19, 0)
    ensures GetNext(Time(19, 10), Time(19, 0)) == Time(19, 10)
    ensures GetNext(Time(10, 11), Time(10, 0)) == Time(10, 11)
    ensures GetWhenRun(Time(16, 10), Time(1, 30)) == Tomorrow
    ensures GetWhenRun(Time(16, 10), Time(16, 45)) == Today
    ensures GetWhenRun(Time(16, 10), Time(16, 10)) == Today
    ensures GetWhenRun(Time(16, 10), Time(19, 0)) == Today
  {
  }
}

=== FILE: outcomes.dfy ===
/** Failure-carrying values shared by the whole model. */
module Outcomes {

  datatype Option<T> = None | Some(value: T)

  /** The two exception kinds the core raises.
      CronError is the module's own CronExpection, raised by the expression
      expander for a wrong token count or an out-of-range hour or minute.
      ValueError covers what Python raises on its own: int() on a malformed
      number, datetime.time() on an out-of-range field, and unpacking a
      one-element split into two names. */
  datatype Error = CronError | ValueError

  datatype Result<T> = Success(value: T) | Failure(error: Error)
}

=== FILE: text.dfy ===
/** The Python string built-ins the core relies on: str.split(sep),
    str.split(), str.rsplit(sep, 1), int() on decimal text, and the
    two-digit zero padding of strftime's %H and %M. */
module Text {
  import opened Outcomes

  /** The characters Python's str.split() treats as whitespace. */
  predicate IsSpace(ch: char) {
    ('\t' <= ch <= '\r') || ('\U{1C}' <= ch <= ' ') || ch == '\U{85}' || ch == '\U{A0}'
    || ch == '\U{1680}' || ('\U{2000}' <= ch <= '\U{200A}') || ch == '\U{2028}'
    || ch == '\U{2029}' || ch == '\U{202F}' || ch == '\U{205F}' || ch == '\U{3000}'
  }

  /** The whitespace int() ignores around its digits: the same set without
      the ASCII separators U+001C..U+001F, which int() leaves in place. */
  predicate IsIntSpace(ch: char) {
    IsSpace(ch) && !('\U{1C}' <= ch <= '\U{1F}')
  }

  predicate NoSpace(s: string) {
    forall i :: 0 <= i < |s| ==> !IsSpace(s[i])
  }

  /** sep.join(parts) for a one-character separator. */
  function Join(parts: seq<string>, sep: char): string {
    if |parts| == 0 then []
    else if |parts| == 1 then parts[0]
    else parts[0] + [sep] + Join(parts[1..], sep)
  }

  // ---------------------------------------------------------------------------
  // s.split(sep)

  /** Python's s.split(sep) for a one-character separator: the pieces between
      separators, empty pieces included, so there is always at least one. */
  function Split(s: string, sep: char): (parts: seq<string>)
    ensures |parts| >= 1
    ensures forall i :: 0 <= i < |parts| ==> sep !in parts[i]
  {
    if s == [] then [[]]
    else
      var rest := Split(s[1..], sep);
      if s[0] == sep then [[]] + rest
      else [[s[0]] + rest[0]] + rest[1..]
  }

  lemma JoinCons(ch: char, parts: seq<string>, sep: char)
    requires |parts| >= 1
    ensures Join([[ch] + parts[0]] + parts[1..], sep) == [ch] + Join(parts, sep)
  {
    var q := [[ch] + parts[0]] + parts[1..];
    assert q[1..] == parts[1..];
  }

  /** Joining the pieces of a split with the same separator gives the text back. */
  lemma {:induction false} JoinSplit(s: string, sep: char)
    ensures Join(Split(s, sep), sep) == s
  {
    if s != [] {
      var rest := Split(s[1..], sep);
      JoinSplit(s[1..], sep);
      if s[0] == sep {
        assert ([[]] + rest)[1..] == rest;
      } else {
        JoinCons(s[0], rest, sep);
      }
    }
  }

  lemma {:induction false} SplitNoSep(s: string, sep: char)
    requires sep !in s
    ensures Split(s, sep) == [s]
  {
    if s != [] {
      SplitNoSep(s[1..], sep);
      assert [s[0]] + s[1..] == s;
    }
  }

  lemma {:induction false} SplitAfterFirst(a: string, b: string, sep: char)
    requires sep !in a
    ensures Split(a + [sep] + b, sep) == [a] + Split(b, sep)
  {
    if a == [] {
      assert a + [sep] + b == [sep] + b;
      assert ([sep] + b)[1..] == b;
    } else {
      assert (a + [sep] + b)[1..] == a[1..] + [sep] + b;
      SplitAfterFirst(a[1..], b, sep);
      assert [a[0]] + a[1..] == a;
    }
  }

  /** Splitting a join of separator-free pieces gives the pieces back. */
  lemma {:induction false} SplitJoin(parts: seq<string>, sep: char)
    requires |parts| >= 1
    requires forall i :: 0 <= i < |parts| ==> sep !in parts[i]
    ensures Split(Join(parts, sep), sep) == parts
  {
    if |parts| == 1 {
      SplitNoSep(parts[0], sep);
    } else {
      SplitJoin(parts[1..], sep);
      SplitAfterFirst(parts[0], Join(parts[1..], sep), sep);
      assert [parts[0]] + parts[1..] == parts;
    }
  }

  // ---------------------------------------------------------------------------
  // s.split()

  /** Length of the run of non-whitespace characters that starts s. */
  function WordLength(s: string): (n: nat)
    ensures n <= |s|
    ensures NoSpace(s[..n])
    ensures n == |s| || IsSpace(s[n])
  {
    if s == [] || IsSpace(s[0]) then 0 else 1 + WordLength(s[1..])
  }

  /** Python's s.split() with no argument: the maximal runs of
      non-whitespace characters, with leading, trailing and repeated
      whitespace producing no empty words. */
  function Words(s: string): (words: seq<string>)
    ensures forall i :: 0 <= i < |words| ==> words[i] != [] && NoSpace(words[i])
    ensures |words| <= |s|
    decreases |s|
  {
    if s == [] then []
    else if IsSpace(s[0]) then Words(s[1..])
    else
      var n := WordLength(s);
      [s[..n]] + Words(s[n..])
  }

  lemma {:induction false} WordLengthOfWord(w: string, rest: string)
    requires NoSpace(w)
    requires rest == [] || IsSpace(rest[0])
    ensures WordLength(w + rest) == |w|
  {
    if w == [] {
      assert w + rest == rest;
    } else {
      assert (w + rest)[1..] == w[1..] + rest;
      WordLengthOfWord(w[1..], rest);
    }
  }

  /** Splitting on whitespace undoes joining non-empty words with one space. */
  lemma {:induction false} WordsJoin(words: seq<string>)
    requires forall i :: 0 <= i < |words| ==> words[i] != [] && NoSpace(words[i])
    ensures Words(Join(words, ' ')) == words
  {
    if |words| == 1 {
      var w := words[0];
      WordLengthOfWord(w, []);
      assert w + [] == w;
      assert w[..|w|] == w && w[|w|..] == [];
    } else if |words| > 1 {
      var w, rest := words[0], Join(words[1..], ' ');
      var s := w + [' '] + rest;
      WordLengthOfWord(w, [' '] + rest);
      assert s == w + ([' '] + rest);
      assert s[..|w|] == w;
      assert s[|w|..] == [' '] + rest;
      assert ([' '] + rest)[1..] == rest;
      WordsJoin(words[1..]);
      assert [w] + words[1..] == words;
    }
  }

  lemma {:induction false} WordLengthBeforeSpace(a: string, rest: string)
    requires rest == [] || IsSpace(rest[0])
    ensures WordLength(a + rest) == WordLength(a)
  {
    if a == [] {
      assert a + rest == rest;
    } else if !IsSpace(a[0]) {
      assert (a + rest)[1..] == a[1..] + rest;
      WordLengthBeforeSpace(a[1..], rest);
    }
  }

  /** A whitespace character separates words: the words of a text are the
      words before it followed by the words after it. */
  lemma {:induction false} WordsAtSpace(a: string, c: char, b: string)
    requires IsSpace(c)
    ensures Words(a + [c] + b) == Words(a) + Words(b)
    decreases |a|
  {
    var s := a + [c] + b;
    if a == [] {
      assert s == [c] + b && s[1..] == b;
    } else if IsSpace(a[0]) {
      assert s[1..] == a[1..] + [c] + b;
      WordsAtSpace(a[1..], c, b);
    } else {
      var n := WordLength(a);
      WordLengthBeforeSpace(a, [c] + b);
      assert s == a + ([c] + b);
      assert s[..n] == a[..n];
      assert s[n..] == a[n..] + [c] + b;
      WordsAtSpace(a[n..], c, b);
    }
  }

  /** Non-empty text without whitespace is a single word. */
  lemma WordsOfWord(w: string)
    requires w != [] && NoSpace(w)
    ensures Words(w) == [w]
  {
    WordsJoin([w]);
  }

  /** The two-token case used by the expression parser. */
  lemma WordsOfTwo(a: string, b: string)
    requires a != [] && NoSpace(a) && b != [] && NoSpace(b)
    ensures Words(a + " " + b) == [a, b]
  {
    WordsJoin([a, b]);
    assert Join([a, b], ' ') == a + [' '] + Join([b], ' ');
  }

  // ---------------------------------------------------------------------------
  // s.rsplit(sep, 1)

  /** Index of the last occurrence of ch in s, if any. */
  function LastIndexOf(s: string, ch: char): (r: Option<nat>)
    ensures r.None? <==> ch !in s
    ensures r.Some? ==> r.value < |s| && s[r.value] == ch && ch !in s[r.value + 1..]
  {
    if s == [] then None
    else if s[|s| - 1] == ch then Some(|s| - 1)
    else
      assert s == s[..|s| - 1] + [s[|s| - 1]];
      var r := LastIndexOf(s[..|s| - 1], ch);
      assert r.Some? ==> s[r.value + 1..] == s[..|s| - 1][r.value + 1..] + [s[|s| - 1]];
      r
  }

  /** Python's s.rsplit(sep, 1): the text cut once, at the last separator;
      a single piece when there is no separator. */
  function RSplitOnce(s: string, sep: char): (parts: seq<string>)
    ensures |parts| == 1 || |parts| == 2
    ensures |parts| == 1 <==> sep !in s
    ensures |parts| == 1 ==> parts[0] == s
    ensures |parts| == 2 ==> parts[0] + [sep] + parts[1] == s && sep !in parts[1]
  {
    match LastIndexOf(s, sep)
    case None => [s]
    case Some(i) =>
      assert s == s[..i] + [sep] + s[i + 1..];
      [s[..i], s[i + 1..]]
  }

  lemma {:induction false} LastIndexOfJoin(a: string, b: string, sep: char)
    requires sep !in b
    ensures LastIndexOf(a + [sep] + b, sep) == Some(|a|)
  {
    var s := a + [sep] + b;
    if b != [] {
      var b' := b[..|b| - 1];
      assert s[..|s| - 1] == a + [sep] + b';
      LastIndexOfJoin(a, b', sep);
    }
  }

  /** Cutting at the last separator recovers the part before it and the
      separator-free part after it. */
  lemma RSplitOnceJoin(a: string, b: string, sep: char)
    requires sep !in b
    ensures RSplitOnce(a + [sep] + b, sep) == [a, b]
  {
    var s := a + [sep] + b;
    LastIndexOfJoin(a, b, sep);
    assert s[..|a|] == a && s[|a| + 1..] == b;
  }

  // ---------------------------------------------------------------------------
  // int() on decimal text

  predicate IsDigit(ch: char) {
    '0' <= ch <= '9'
  }

  predicate AllDigits(s: string) {
    forall i :: 0 <= i < |s| ==> IsDigit(s[i])
  }

  /** A non-empty run of ASCII digits. */
  predicate IsDigits(s: string) {
    s != [] && AllDigits(s)
  }

  function DigitValue(ch: char): (d: nat)
    requires IsDigit(ch)
    ensures d <= 9
  {
    ch as int - '0' as int
  }

  function DigitChar(d: nat): (ch: char)
    requires d <= 9
    ensures IsDigit(ch) && DigitValue(ch) == d
  {
    ('0' as int + d) as char
  }

  /** The decimal value of a digit string, most significant digit first. */
  function DigitsValue(s: string): nat
    requires AllDigits(s)
  {
    if s == [] then 0 else 10 * DigitsValue(s[..|s| - 1]) + DigitValue(s[|s| - 1])
  }

  /** Leading zeros do not change the value. */
  lemma {:induction false} LeadingZero(s: string)
    requires AllDigits(s)
    ensures DigitsValue(['0'] + s) == DigitsValue(s)
  {
    if s != [] {
      assert (['0'] + s)[..|s|] == ['0'] + s[..|s| - 1];
      LeadingZero(s[..|s| - 1]);
    }
  }

  /** s.lstrip(): drops the leading whitespace and nothing else. */
  function StripLeft(s: string): (r: string)
    ensures |r| <= |s| && r == s[|s| - |r|..]
    ensures forall i :: 0 <= i < |s| - |r| ==> IsIntSpace(s[i])
    ensures r == [] || !IsIntSpace(r[0])
  {
    if s != [] && IsIntSpace(s[0]) then StripLeft(s[1..]) else s
  }

  /** s.rstrip(): drops the trailing whitespace and nothing else. */
  function StripRight(s: string): (r: string)
    ensures |r| <= |s| && r == s[..|r|]
    ensures forall i :: |r| <= i < |s| ==> IsIntSpace(s[i])
    ensures r == [] || !IsIntSpace(r[|r| - 1])
  {
    if s != [] && IsIntSpace(s[|s| - 1]) then StripRight(s[..|s| - 1]) else s
  }

  /** The whitespace stripping int() applies. */
  function Strip(s: string): string {
    StripRight(StripLeft(s))
  }

  /** A numeral has no whitespace at either end, so stripping keeps it. */
  lemma StripNumeral(s: string)
    requires IsNumeral(s)
    ensures Strip(s) == s
  {
    assert !IsIntSpace(s[0]) && !IsIntSpace(s[|s| - 1]);
    assert StripLeft(s) == s;
  }

  /** The text int() accepts once stripped: an optional sign followed by one
      or more ASCII digits. */
  predicate IsNumeral(t: string) {
    IsDigits(t) || (|t| >= 2 && (t[0] == '+' || t[0] == '-') && IsDigits(t[1..]))
  }

  /** An optional sign followed by one or more ASCII digits. */
  function ParseSigned(t: string): (r: Option<int>)
    ensures r.Some? <==> IsNumeral(t)
    ensures IsDigits(t) ==> r == Some(DigitsValue(t))
    ensures |t| >= 2 && t[0] == '+' && IsDigits(t[1..]) ==> r == Some(DigitsValue(t[1..]))
    ensures |t| >= 2 && t[0] == '-' && IsDigits(t[1..]) ==> r == Some(0 - DigitsValue(t[1..]) as int)
    ensures r.Some? ==> t != []
  {
    if t != [] && (t[0] == '+' || t[0] == '-') && IsDigits(t[1..]) then
      var n: int := DigitsValue(t[1..]);
      Some(if t[0] == '-' then -n else n)
    else if IsDigits(t) then
      Some(DigitsValue(t))
    else
      None
  }

  /** Python's int(s) on decimal text: surrounding whitespace, an optional
      sign, then one or more ASCII digits. */
  function ParseInt(s: string): (r: Option<int>)
    ensures r.Some? <==> IsNumeral(Strip(s))
    ensures r == ParseSigned(Strip(s))
    ensures IsDigits(s) ==> r == Some(DigitsValue(s))
    ensures |s| >= 2 && s[0] == '-' && IsDigits(s[1..]) ==> r == Some(0 - DigitsValue(s[1..]) as int)
    ensures r.Some? ==> s != []
  {
    if IsNumeral(s) then
      StripNumeral(s);
      ParseSigned(s)
    else
      ParseSigned(Strip(s))
  }

  // ---------------------------------------------------------------------------
  // strftime's %H and %M

  /** Two decimal digits with a leading zero. */
  function Pad2(n: nat): (s: string)
    requires n <= 99
    ensures |s| == 2 && IsDigits(s) && DigitsValue(s) == n
  {
    var s := [DigitChar(n / 10), DigitChar(n % 10)];
    assert s[..1][..0] == [];
    assert DigitsValue(s[..1]) == n / 10;
    s
  }
}

=== FILE: times.dfy ===
/** Hour-and-minute times: the datetime.time values the core builds, their
    ordering, their HH:MM rendering, and the parser for the reference time
    (the "now" the caller supplies). */
module Times {
  import opened Outcomes
  import opened Text

  /** A datetime.time reduced to the two fields the core uses. */
  datatype Time = Time(hour: int, minute: int) {
    predicate Valid() {
      0 <= hour <= 23 && 0 <= minute <= 59
    }
  }

  /** datetime.time(hour, minute): refuses a field outside its range with ValueError. */
  function MakeTime(hour: int, minute: int): (r: Result<Time>)
    ensures r.Success? <==> 0 <= hour <= 23 && 0 <= minute <= 59
    ensures r.Success? ==> r.value.Valid() && r.value.hour == hour && r.value.minute == minute
    ensures r.Failure? ==> r.error == ValueError
  {
    if 0 <= hour <= 23 && 0 <= minute <= 59 then Success(Time(hour, minute)) else Failure(ValueError)
  }

  /** Python's `<` on datetime.time: by hour, then by minute. */
  predicate Before(a: Time, b: Time) {
    a.hour < b.hour || (a.hour == b.hour && a.minute < b.minute)
  }

  /** Minutes since midnight. */
  function MinuteOfDay(t: Time): int {
    60 * t.hour + t.minute
  }

  /** On valid times the hour-then-minute comparison is the order of the
      minutes since midnight, so it is a strict total order. */
  lemma BeforeIsMinuteOrder(a: Time, b: Time)
    requires a.Valid() && b.Valid()
    ensures Before(a, b) <==> MinuteOfDay(a) < MinuteOfDay(b)
    ensures MinuteOfDay(a) == MinuteOfDay(b) <==> a == b
  {
    if a.hour < b.hour {
      assert MinuteOfDay(a) <= 60 * (b.hour - 1) + 59;
    } else if b.hour < a.hour {
      assert MinuteOfDay(b) <= 60 * (a.hour - 1) + 59;
    }
  }

  /** TimeInput.__set__: datetime.time(*map(int, value.split(":"))).
      One piece is an hour with minute 0; two pieces are hour and minute;
      every int() runs before datetime.time() checks the range. */
  function ParseClock(s: string): (r: Result<Time>)
    ensures r.Success? ==> r.value.Valid()
    ensures r.Failure? ==> r.error == ValueError
    ensures |Split(s, ':')| > 2 ==> r.Failure?
    ensures r.Success? && |Split(s, ':')| == 1 ==> r.value.minute == 0
    ensures r.Success? ==> IsNumeral(Strip(Split(s, ':')[0]))
    ensures r.Success? && |Split(s, ':')| == 2 ==> IsNumeral(Strip(Split(s, ':')[1]))
    // every int() runs before datetime.time, and a part it refuses is a ValueError
    ensures |Split(s, ':')| <= 2 && ParseInt(Split(s, ':')[0]).None? ==> r == Failure(ValueError)
    ensures |Split(s, ':')| == 2 && ParseInt(Split(s, ':')[1]).None? ==> r == Failure(ValueError)
    // otherwise the parsed numbers go to datetime.time, the minute defaulting to 0
    ensures |Split(s, ':')| == 1 && ParseInt(Split(s, ':')[0]).Some? ==>
      r == MakeTime(ParseInt(Split(s, ':')[0]).value, 0)
    ensures |Split(s, ':')| == 2 && ParseInt(Split(s, ':')[0]).Some? && ParseInt(Split(s, ':')[1]).Some? ==>
      r == MakeTime(ParseInt(Split(s, ':')[0]).value, ParseInt(Split(s, ':')[1]).value)
  {
    var parts := Split(s, ':');
    if |parts| > 2 then Failure(ValueError)
    else
      match ParseInt(parts[0])
      case None => Failure(ValueError)
      case Some(hour) =>
        if |parts| == 1 then MakeTime(hour, 0)
        else
          match ParseInt(parts[1])
          case None => Failure(ValueError)
          case Some(minute) => MakeTime(hour, minute)
  }

  /** "H:M" with decimal fields, leading zeros allowed, yields exactly (H, M)
      when both are in range and fails with ValueError otherwise. */
  lemma ParseClockDigits(hs: string, ms: string)
    requires IsDigits(hs) && IsDigits(ms)
    ensures ParseClock(hs + ":" + ms) == MakeTime(DigitsValue(hs), DigitsValue(ms))
  {
    assert ':' !in hs && ':' !in ms;
    SplitJoin([hs, ms], ':');
    assert Join([hs, ms], ':') == hs + ":" + ms;
  }

  /** A bare hour "H" is H o'clock. */
  lemma ParseClockHourOnly(hs: string)
    requires IsDigits(hs)
    ensures ParseClock(hs) == MakeTime(DigitsValue(hs), 0)
  {
    assert ':' !in hs;
    SplitNoSep(hs, ':');
  }

  /** strftime('%H:%M'): both fields as two digits. */
  function Format(t: Time): (s: string)
    requires t.Valid()
    ensures |s| == 5 && s[2] == ':'
    ensures IsDigits(s[..2]) && DigitsValue(s[..2]) == t.hour
    ensures IsDigits(s[3..]) && DigitsValue(s[3..]) == t.minute
  {
    var hh, mm := Pad2(t.hour), Pad2(t.minute);
    var s := hh + ":" + mm;
    assert s[..2] == hh && s[3..] == mm;
    s
  }

  /** Reading back the rendered time gives the time. */
  lemma ParseClockFormat(t: Time)
    requires t.Valid()
    ensures ParseClock(Format(t)) == Success(t)
  {
    ParseClockDigits(Pad2(t.hour), Pad2(t.minute));
  }

  /** A leading zero on either field changes nothing: "03:6", "3:06" and
      "3:6" are the same time. */
  lemma ParseClockLeadingZeros(hs: string, ms: string)
    requires IsDigits(hs) && IsDigits(ms)
    ensures ParseClock("0" + hs + ":" + ms) == ParseClock(hs + ":" + ms)
    ensures ParseClock(hs + ":" + "0" + ms) == ParseClock(hs + ":" + ms)
  {
    var zh, zm := "0" + hs, "0" + ms;
    assert DigitsValue(zh) == DigitsValue(hs) && DigitsValue(zm) == DigitsValue(ms) by {
      LeadingZero(hs);
      LeadingZero(ms);
    }
    ParseClockDigits(hs, ms);
    assert ParseClock(zh + ":" + ms) == ParseClock(hs + ":" + ms) by {
      ParseClockDigits(zh, ms);
    }
    assert ParseClock(hs + ":" + zm) == ParseClock(hs + ":" + ms) by {
      ParseClockDigits(hs, zm);
    }
    assert "0" + hs + ":" + ms == zh + ":" + ms;
    assert hs + ":" + "0" + ms == hs + ":" + zm;
  }

  /** One of the repository's test inputs, with a zero-padded hour. */
  lemma ParseClockExample()
    ensures ParseClock("03:6") == Success(Time(3, 6))
  {
    var hs, ms := "03", "6";
    assert "03:6" == hs + ":" + ms;
    assert DigitsValue(hs) == 3 && DigitsValue(ms) == 6;
    ParseClockDigits(hs, ms);
  }
}
